=== FILE: README.md ===
# Delivery-note reconciliation: a Dafny model

The tool is a single Streamlit page (`app.py`). It takes an uploaded delivery note (a PDF,
an image or an Excel sheet), asks a hosted language model to turn each page into a JSON
array of rows, and builds a table from those rows. It then compares the sum of the product
counts with the total the document announces. This project models the logic in that
pipeline that does not depend on the model service:

- **JSON-block extraction** (`extract_json_block`). A lazy bracketed pattern whose dot also
  matches newlines is run through `findall`, and Python's `max` with `len` as key picks the
  result. The regex engine is
  modelled directly: `MatchAt` is one attempt, `Search` finds the leftmost attempt that
  succeeds, and `FindAll` resumes where the previous match ended. The result is proved
  equal to a declarative description (`IsMatchList`).
- **Analysis of a reply** (`run_gpt_analysis`). Any exception becomes an empty row list.
- **Extension dispatch**. The extension is the text after the last `.`, lower-cased. It
  selects the image route (pdf/png/jpg/jpeg), the spreadsheet route (xls/xlsx) or no route.
- **Row gathering** in page order, and the stop on an empty table.
- **Numeric coercion** of the quantity columns.
- **Reconciliation**. The computed total, the announced total, and the choice between the
  "consistent" and "inconsistent" alerts, including the crashes that follow the gathering of
  the rows.

Modules: `Wrappers` (Option/Result), `Text` (ASCII lower-casing and case-insensitive
search), `JsonBlock`, `Table` (rows, cells, coercion), `Reconcile` and `Session`.
`Session.Run` is the script's flow from the file name to the alert: it is
`Session.CollectRows` for the route of the extension, followed by `Session.Finish`.

The model service, `json.loads` and the page rasteriser are inputs, not code. A `Reply` is
what the chat-completion call returned, or that it raised. `decode` stands for
`json.loads` followed by reading the objects as rows, and returns `None` when decoding
fails. The caller supplies one reply per page image.

### The code counts the Total row in its own sum

`total_calcule` sums the product column over every row, including the row labelled
"Total". The prompt asks the model to check that the sum of the quantities equals the
announced total (app.py:35), and its example array closes with a Total row (app.py:40). So
items 108 and 50 closed by "Total 158" are meant to be reported as consistent. The code as
written computes 108 + 50 + 158 = 316 and reports an inconsistency of 158 against 316. This model follows
the code:

- `Reconcile.TotalRowCountedTwice` proves the general case.
- `Reconcile.SingleTotalRow` proves that such a table is reported consistent exactly when
  its item rows sum to zero.
- `Reconcile.DeliveryNoteExample` proves the concrete case.

## Model

| member | source | states |
|---|---|---|
| Text.Lower | app.py:107 | after `.lower()` no ASCII capital remains; every other character is kept in place, and each capital becomes the letter of the same rank in the lower-case alphabet |
| Text.LowerIdempotent | app.py:107 | lower-casing an already lower-cased name changes nothing |
| Text.ContainsFoldedIff | app.py:140 | the case-insensitive `contains` holds exactly when the needle occurs at some position once both sides are lower-cased |
| Text.CaseOfNeedleIgnored | app.py:140 | the needle "Total" is found in "TOTAL" and in "total": the case of neither side matters |
| JsonBlock.MatchAt | app.py:80 | an attempt at position p succeeds only on a `[` and ends just after the first `]` beyond it; it fails when p is not `[` or no `]` follows |
| JsonBlock.Search | app.py:80-81 | the search finds nothing exactly when no `[` has a `]` after it; otherwise it finds a block with no `[` between the start point and the block |
| JsonBlock.FindAll | app.py:81 | `findall` yields a match list in the declarative sense: each match is a block at the first `[` after the previous match, and no candidate remains after the last |
| JsonBlock.MatchListFacts | app.py:81 | every match is a `[`…`]` block with one `]`, and matches are ordered left to right without overlap |
| JsonBlock.MatchListIsFindAll | app.py:81 | any list meeting the declarative description is exactly what `findall` returns, so the description is unique |
| JsonBlock.FindAllCharacterised | app.py:80-81 | both directions: a span list is `findall`'s result iff it meets the declarative description |
| JsonBlock.MatchesShape | app.py:81 | `findall` returns one string per match, and each opens with `[` and closes with `]` |
| JsonBlock.FirstLongest | app.py:84 | `max(..., key=len)` returns a longest match, strictly longer than every match before it, so the first of equal-length matches wins |
| JsonBlock.ExtractJsonBlock | app.py:79-84 | extraction raises exactly when no `[` has a `]` somewhere after it; otherwise it returns one of the matches |
| JsonBlock.BlockShape | app.py:80-84 | the returned block is a contiguous substring of the reply that starts with `[`, ends with `]` and holds no other `]` |
| JsonBlock.BlockIsFirstLongest | app.py:84 | the returned block is at least as long as every match and strictly longer than every earlier one |
| JsonBlock.SingleBlock | app.py:79-84 | a reply with one bracketed region and no other `[` yields exactly that region |
| JsonBlock.MultiLineArray | app.py:80 | under DOTALL a newline inside the array does not stop the match |
| JsonBlock.NestedMatches | app.py:80-81 | the lazy pattern cuts a nested array short: `[[1],[2]]` matches as `[[1]` and `[2]` |
| JsonBlock.NestedArrayCut | app.py:80-84 | `[[1],[2]]` matches as `[[1]` and `[2]`; the nested array is cut short and `[[1]` is returned |
| JsonBlock.TieGoesToFirst | app.py:84 | of two equally long arrays the first is returned |
| JsonBlock.UnclosedArray | app.py:82-83 | a reply whose `[` is never closed raises "Aucun JSON trouvé." |
| Table.ParseInt | app.py:129 | the model's reading of quoted counts: text reads as a number exactly when it is an optional sign followed by at least one digit |
| Table.ParseShowInt | app.py:129 | reading back the decimal text of any integer gives that integer |
| Table.ParseSignedPadded | app.py:129 | a count with leading zeros, with or without a sign, reads as the signed value of its digits: "007" and "+7" give 7, "-007" gives -7 |
| Table.QuotedNumberCoerces | app.py:129 | a product count quoted as a string coerces to the same number as the bare count |
| Table.HasColumnAppend | app.py:120-130 | the table built from rows gathered page after page has a column exactly when some page's rows carry its key |
| Table.Coerce | app.py:129-130 | `to_numeric(errors="coerce")`: numbers stay; text is a number iff it is an integer literal; null and missing cells become NaN |
| Reconcile.ComputedTotal | app.py:138 | a single row's total is its coerced count, or 0 when that is NaN |
| Reconcile.ComputedTotalNonNegative | app.py:138 | when no count is negative, the computed total is not negative |
| Reconcile.ComputedTotalAppend | app.py:138 | the computed total of concatenated rows is the sum of the parts' totals |
| Reconcile.ComputedTotalSplit | app.py:138 | splitting rows by any test splits the computed total into the two groups' totals |
| Reconcile.NoNumberNoTotal | app.py:138 | rows none of whose counts is numeric sum to 0, like pandas' NaN-skipping `sum()` |
| Reconcile.NonNumericIgnored | app.py:129-138 | the computed total equals the total over just the rows whose count coerces to a number |
| Reconcile.TotalRowsAreSummed | app.py:138-140 | the computed total is the total of the rows labelled "total" plus the total of the others, so the Total row is summed too |
| Reconcile.IsTotalRowIff | app.py:140 | a row is a total row exactly when its reference is a string in which "total" occurs at some position, ignoring case |
| Reconcile.MaxTotalQuantity | app.py:140 | the maximum count among total rows: `None` iff no total row has a number, otherwise one of their counts and at least every other |
| Reconcile.ReconcileTotalsAlerts | app.py:137-148 | the run crashes exactly when the lookup succeeds but no total row states a number, and then only in `int(NaN)`; every alert carries the full computed total; an inconsistency names a non-zero announced total that differs from it |
| Reconcile.ReferenceLookupRaisesIff | app.py:139-141 | on a non-empty table the reference lookup raises (and is caught) exactly when no reference is a string and some reference is a number or absent; the missing-column `KeyError` is the case where every reference is absent |
| Reconcile.AnnouncedTotal | app.py:139-142 | the announced total is `None` exactly when the reference lookup raises, NaN exactly when no total row has a number, otherwise the largest count of a total row |
| Reconcile.Decide | app.py:145-148 | NaN crashes in `int()`; an inconsistency is reported iff the announced total is a non-zero number different from the computed total; otherwise the computed total is reported consistent |
| Reconcile.AnnouncedOfClosingTotal | app.py:140 | item rows closed by one total row announce that row's count |
| Reconcile.ClosingTotalVerdict | app.py:138-148 | items closed by any total row with a non-zero count `q` are consistent iff the items sum to zero; otherwise `q` is set against the items' sum plus `q` |
| Reconcile.SingleTotalRow | app.py:138-148 | items closed by one non-zero Total row are consistent iff the items sum to zero; otherwise the alert is Total against items + Total |
| Reconcile.TotalRowCountedTwice | app.py:138-148 | a Total row stating exactly the non-zero sum of the items is reported inconsistent against twice that sum |
| Reconcile.NoStatedTotalCrashes | app.py:140-146 | with string references but no numeric total row, the run ends in `int(NaN)` |
| Reconcile.NullReferences | app.py:139-148 | references null in one row and absent from the other make the lookup raise, so the total is reported consistent; references all null let it through and the run crashes in `int(NaN)` |
| Reconcile.LookupFailureReportsConsistent | app.py:139-148 | when the reference lookup raises, the computed total is reported as consistent |
| Reconcile.DeliveryNoteExample | app.py:138-148 | 108, 50, Total 158 gives "158 against 316"; with Total 160 it gives "160 against 318" |
| Session.AfterLastDot | app.py:107 | `split(".")[-1]` is a dot-free suffix of the name, preceded by a `.` unless it is the whole name |
| Session.Extension | app.py:107 | the extension is the lower-cased suffix of the name of its own length; that suffix holds no dot and is preceded by a dot unless it covers the whole name, so it is the lower-cased text after the last dot |
| Session.AfterLastDotOfJoin | app.py:107 | for any stem, `stem + "." + ext` with a dot-free `ext` has `ext` as its suffix |
| Session.NoDotWholeName | app.py:107 | a name with no dot is its own suffix |
| Session.RouteOf | app.py:117-125 | the image route is taken exactly for pdf/png/jpg/jpeg and the spreadsheet route exactly for xls/xlsx |
| Session.UpperCasePdfIsImage | app.py:107-117 | "Bon.PDF" is lower-cased to "pdf" and takes the image route |
| Session.LastDotDecides | app.py:107-125 | "notes.pdf.txt" has extension "txt" and takes no route |
| Session.Analyse | app.py:86-97 | a failed call or a reply with no bracketed block gives `[]`; when the call answers, a block is extracted and it decodes, the decoded rows are returned; non-empty rows come only that way |
| Session.Gather | app.py:115-120 | every row any page yields is among the gathered rows |
| Session.CollectRows | app.py:117-125 | no route gathers nothing; the spreadsheet route gives the analysis of the one sheet call, and so rows only from an answered call; on the image route the rows are the concatenation, in page order, of each page's rows, so every page's rows are kept and every row kept comes from some page |
| Session.GatherAppend | app.py:115-120 | gathering over consecutive page runs concatenates their rows in page order |
| Session.GatherOne | app.py:119-120 | gathering one page yields that page's rows |
| Session.FailedPageContributesNothing | app.py:95-120 | dropping a page whose analysis yields `[]` leaves the gathered rows unchanged |
| Session.GatheredRowsComeFromPages | app.py:115-120 | every gathered row was produced for some page |
| Session.GatheredRowsFromPages | app.py:115-120 | the same for all gathered rows at once |
| Session.NoPageRows | app.py:115-120 | when no page yields rows, nothing is gathered |
| Session.ComputedTotalByPage | app.py:120-138 | adding a page to the document adds that page's own total to the computed total |
| Session.Finish | app.py:127-148 | the run stops iff no rows were gathered; it crashes on the product column iff rows exist without it, and on the carton column iff only that one is absent; a report carries the gathered rows |
| Session.Run | app.py:106-148 | the run stops exactly when the extension takes no route or the route yields no rows; so an extension outside the six accepted ones stops it, and every report comes from a supported route |
| Session.FailedCallsStop | app.py:95-134 | an image or PDF whose every call fails stops the run |
| Session.FinishReconciles | app.py:127-148 | with both columns present, a report is made iff reconciliation succeeds and carries its verdict, and the run crashes in `int(NaN)` iff the announced total is NaN |

## Left out

- The Streamlit page: config, title, uploader, buttons, the `df_final` session cache, the
  rerun button, the table display and the downloads (app.py:14-20, 100-112, 132, 150-164).
  These are user-interface and session plumbing. Selecting the four display columns at
  line 152 can raise `KeyError` after the alert; that is not modelled.
- The missing-API-key stop (app.py:17-20). It is configuration, not logic.
- The chat-completion calls and the prompt (app.py:23-42, 54-77). They are network calls to
  a non-deterministic service and become the `Reply` inputs.
- PDF rasterisation, image loading, base64 encoding and the MD5 caption (app.py:45-52,
  55-57, 108-109). These are thin library wrappers. The caller supplies the replies for the
  page images, and a PNG or JPEG has one page.
- `json.loads`, `pd.read_excel` and `to_csv` (app.py:93, 123-124). These are foreign
  parsers, represented by the `decode` parameter and the `sheet` reply. Array elements that
  are not objects are not represented.
- Reading the uploaded file (app.py:118, 123). An unreadable PDF or image, or a sheet
  `pd.read_excel` rejects, raises outside the `try` of `run_gpt_analysis` and ends the run
  with an uncaught exception. The model takes the pages and the sheet reply as given, so
  `Session.Run` never crashes before `Session.Finish`.
- The "Vérification" column (app.py:131). It only feeds the display.
- Table.ParseInt: only an optional sign followed by digits reads as a number. pandas also
  reads decimals ("1.5"), exponents ("1e3"), digits padded with spaces (" 12 ") and "inf";
  here those texts become NaN.
- Table.Coerce: quantities are integers. JSON floats and booleans are not represented, and
  text that pandas may also read as a number ("1.5", "1e3", " 12 ") is treated as
  non-numeric. Float sums and `int()` truncation of a float total are therefore not modelled.
- Text.Lower: only ASCII capitals are lower-cased. This does not change any extension
  comparison, because no non-ASCII character lower-cases to a letter of the six accepted
  extensions. It also does not change any "total" match, because Python's IGNORECASE adds
  no extra equivalents for t, o, a or l.
- Reconcile.AnnouncedTotal: the `AttributeError` of pandas' `.str` accessor follows
  pandas' inference of the column type, reduced to one rule: the lookup raises when no
  reference is a string and some reference is a number or is absent from its row (pandas
  then stores the column as numbers). A column of nulls alone is accepted. Boolean and float
  references are not represented.
- Reconcile.ComputedTotal: the sum is an unbounded integer. pandas stores the product
  column as int64, which wraps past 2^63, or as float64 once a NaN is present, which rounds
  past 2^53. Neither limit is modelled.

=== FILE: json_block.dfy ===
/** The extraction of a JSON array from the model's free-text reply (app.py:79-84): every
    non-overlapping match of a lazy bracketed pattern whose dot also matches newlines, and
    then the longest of them. */
module JsonBlock {
  import opened Wrappers

  /** The half-open range `[start, end)` of positions of the reply. */
  datatype Span = Span(start: nat, end: nat)

  /** The `ValueError` raised at app.py:83 when nothing matches. */
  datatype ExtractError = NoJsonFound

  /** `sp` is a stretch of `s` the pattern `\[.*?\]` matches in full: it opens with `[`,
      closes with `]`, and the lazy `.*?` stops at the first `]`, so no other `]` lies
      inside. Under DOTALL any other character, newlines and `[` included, may. */
  predicate IsBlock(s: string, sp: Span) {
    && sp.start < sp.end <= |s|
    && s[sp.start] == '['
    && s[sp.end - 1] == ']'
    && forall k :: sp.start < k < sp.end - 1 ==> s[k] != ']'
  }

  /** No `[` occurs at a position in `[i, j)`. */
  predicate NoOpenBetween(s: string, i: nat, j: nat) {
    forall k :: i <= k < j && k < |s| ==> s[k] != '['
  }

  /** Some `[` at or after `from` has a `]` somewhere after it. */
  predicate HasCandidate(s: string, from: nat) {
    exists i, j :: from <= i < j < |s| && s[i] == '[' && s[j] == ']'
  }

  /** The first position at or after `i` holding `c`. */
  function IndexFrom(s: string, c: char, i: nat): (r: Option<nat>)
    ensures r.None? ==> forall k :: i <= k < |s| ==> s[k] != c
    ensures r.Some? ==> i <= r.value < |s| && s[r.value] == c
    ensures r.Some? ==> forall k :: i <= k < r.value ==> s[k] != c
    decreases |s| - i
  {
    if i >= |s| then None
    else if s[i] == c then Some(i)
    else IndexFrom(s, c, i + 1)
  }

  /** The regex engine's attempt at position `p`: `\[` must match there, then the lazy
      `.*?` grows one character at a time until `\]` matches. */
  function MatchAt(s: string, p: nat): (r: Option<Span>)
    requires p < |s|
    ensures r.Some? ==> r.value.start == p && IsBlock(s, r.value)
    ensures r.None? ==> s[p] != '[' || forall k :: p < k < |s| ==> s[k] != ']'
  {
    if s[p] != '[' then None
    else match IndexFrom(s, ']', p + 1)
      case None => None
      case Some(q) => Some(Span(p, q + 1))
  }

  /** A regex search from position `from`: the attempt at the leftmost position at or after `from`
      that succeeds. */
  function Search(s: string, from: nat): (r: Option<Span>)
    ensures r.None? <==> !HasCandidate(s, from)
    ensures r.Some? ==> IsBlock(s, r.value) && from <= r.value.start
    ensures r.Some? ==> NoOpenBetween(s, from, r.value.start)
    decreases |s| - from
  {
    if from >= |s| then None
    else match MatchAt(s, from)
      case Some(sp) => Some(sp)
      case None => Search(s, from + 1)
  }

  /** The declarative reading of `findall` from `from`: every match is a block that starts
      at the first `[` after the previous match, and once the list ends no `[` is followed
      by a `]`. */
  predicate IsMatchList(s: string, from: nat, spans: seq<Span>)
    decreases |spans|
  {
    if spans == [] then !HasCandidate(s, from)
    else
      && IsBlock(s, spans[0])
      && from <= spans[0].start
      && NoOpenBetween(s, from, spans[0].start)
      && IsMatchList(s, spans[0].end, spans[1..])
  }

  /** `findall` from `from`: searches, then resumes where the last match ended. */
  function FindAll(s: string, from: nat): (r: seq<Span>)
    ensures IsMatchList(s, from, r)
    decreases |s| - from
  {
    match Search(s, from)
    case None => []
    case Some(sp) =>
      var rest := FindAll(s, sp.end);
      assert ([sp] + rest)[1..] == rest;
      [sp] + rest
  }

  /** The strings `findall` returns for the whole reply, in order. */
  function Matches(s: string): seq<string> {
    var spans := FindAll(s, 0);
    MatchListFacts(s, 0, spans);
    Texts(s, spans)
  }

  /** The text of each block, in order. */
  function Texts(s: string, spans: seq<Span>): seq<string>
    requires forall k :: 0 <= k < |spans| ==> IsBlock(s, spans[k])
  {
    seq(|spans|, k requires 0 <= k < |spans| => assert IsBlock(s, spans[k]); s[spans[k].start..spans[k].end])
  }

  /** Every string `findall` returns opens with `[` and closes with `]`, one per match. */
  lemma {:induction false} MatchesShape(s: string)
    ensures |Matches(s)| == |FindAll(s, 0)|
    ensures forall k :: 0 <= k < |Matches(s)| ==>
      var m := Matches(s)[k]; 2 <= |m| && m[0] == '[' && m[|m| - 1] == ']'
  {
    var spans := FindAll(s, 0);
    MatchListFacts(s, 0, spans);
    TextsShape(s, spans);
  }

  /** The text of every block opens with `[` and closes with `]`. */
  lemma {:induction false} TextsShape(s: string, spans: seq<Span>)
    requires forall k :: 0 <= k < |spans| ==> IsBlock(s, spans[k])
    ensures |Texts(s, spans)| == |spans|
    ensures forall k :: 0 <= k < |spans| ==>
      var m := Texts(s, spans)[k]; 2 <= |m| && m[0] == '[' && m[|m| - 1] == ']'
  {
    forall k | 0 <= k < |spans|
      ensures var m := Texts(s, spans)[k]; 2 <= |m| && m[0] == '[' && m[|m| - 1] == ']'
    {
      BlockText(s, spans[k]);
    }
  }

  /** Python's `max` with `len` as key: a left-to-right scan that replaces the current best only
      by a strictly longer string, so the first of several longest strings wins. */
  function FirstLongest(ms: seq<string>): (k: nat)
    requires |ms| > 0
    ensures k < |ms|
    ensures forall j :: 0 <= j < |ms| ==> |ms[j]| <= |ms[k]|
    ensures forall j :: 0 <= j < k ==> |ms[j]| < |ms[k]|
    decreases |ms|
  {
    if |ms| == 1 then 0
    else
      var k := FirstLongest(ms[..|ms| - 1]);
      if |ms[|ms| - 1]| > |ms[k]| then |ms| - 1 else k
  }

  /** `extract_json_block`: the longest match, or `NoJsonFound` when there is none. */
  function ExtractJsonBlock(s: string): (r: Result<string, ExtractError>)
    ensures r.Failure? <==> !HasCandidate(s, 0)
    ensures r.Success? ==> r.value in Matches(s)
  {
    var ms := Matches(s);
    if |ms| == 0 then Failure(NoJsonFound)
    else Success(ms[FirstLongest(ms)])
  }

  // ---------------------------------------------------------------------------
  // Properties of the match list

  /** Every match is a block, matches are ordered left to right and do not overlap. */
  lemma {:induction false} MatchListFacts(s: string, from: nat, spans: seq<Span>)
    requires IsMatchList(s, from, spans)
    ensures forall k :: 0 <= k < |spans| ==> IsBlock(s, spans[k]) && from <= spans[k].start
    ensures forall k :: 0 <= k < |spans| - 1 ==> spans[k].end <= spans[k + 1].start
    decreases |spans|
  {
    if spans != [] {
      MatchListFacts(s, spans[0].end, spans[1..]);
      forall k | 0 < k < |spans|
        ensures IsBlock(s, spans[k]) && spans[0].end <= spans[k].start
      {
        assert spans[k] == spans[1..][k - 1];
      }
    }
  }

  /** The first occurrence of `c` at or after `i` is the position `p` that holds `c` with no
      `c` before it. */
  lemma IndexFromIs(s: string, c: char, i: nat, p: nat)
    requires i <= p < |s| && s[p] == c
    requires forall k :: i <= k < p ==> s[k] != c
    ensures IndexFrom(s, c, i) == Some(p)
  {
  }

  /** A block that starts at the first `[` at or after `from` is what the search finds. */
  lemma {:induction false} SearchFinds(s: string, from: nat, b: Span)
    requires IsBlock(s, b) && from <= b.start && NoOpenBetween(s, from, b.start)
    ensures Search(s, from) == Some(b)
  {
    assert from <= b.start < b.end - 1 < |s| && s[b.start] == '[' && s[b.end - 1] == ']';
    assert HasCandidate(s, from);
    var sp := Search(s, from).value;
    IndexFromIs(s, '[', from, b.start);
    IndexFromIs(s, '[', from, sp.start);
    assert sp.start == b.start;
    IndexFromIs(s, ']', b.start + 1, b.end - 1);
    IndexFromIs(s, ']', sp.start + 1, sp.end - 1);
  }

  /** The declarative match list is unique: it is exactly what `findall` produces. */
  lemma {:induction false} MatchListIsFindAll(s: string, from: nat, spans: seq<Span>)
    requires IsMatchList(s, from, spans)
    ensures spans == FindAll(s, from)
    decreases |spans|
  {
    if spans != [] {
      var b := spans[0];
      SearchFinds(s, from, b);
      MatchListIsFindAll(s, b.end, spans[1..]);
      assert spans == [b] + spans[1..];
    }
  }

  /** Both directions: a span list is what `findall` returns iff it satisfies the
      declarative description. */
  lemma {:induction false} FindAllCharacterised(s: string, spans: seq<Span>)
    ensures spans == FindAll(s, 0) <==> IsMatchList(s, 0, spans)
  {
    if IsMatchList(s, 0, spans) {
      MatchListIsFindAll(s, 0, spans);
    }
  }

  // ---------------------------------------------------------------------------
  // Properties of the extracted block

  /** `b` occurs in `s` starting at position `i`. */
  predicate OccursAt(s: string, b: string, i: int) {
    0 <= i && i + |b| <= |s| && s[i..i + |b|] == b
  }

  /** The text of a block has the block's shape and occurs in the reply where the block
      starts. */
  lemma {:induction false} BlockText(s: string, sp: Span)
    requires IsBlock(s, sp)
    ensures IsBlockText(s, s[sp.start..sp.end]) && OccursAt(s, s[sp.start..sp.end], sp.start)
  {
    assert OccursAt(s, s[sp.start..sp.end], sp.start);
  }

  /** `b` is a contiguous stretch of the reply `s` that starts with `[`, ends with `]` and
      holds no other `]`. */
  ghost predicate IsBlockText(s: string, b: string) {
    && 2 <= |b| && b[0] == '[' && b[|b| - 1] == ']'
    && (forall k :: 0 <= k < |b| - 1 ==> b[k] != ']')
    && exists i :: OccursAt(s, b, i)
  }

  /** The block is a contiguous stretch of the reply that starts with `[`, ends with `]` and
      holds no other `]`. */
  lemma {:induction false} BlockShape(s: string)
    ensures ExtractJsonBlock(s).Success? ==> IsBlockText(s, ExtractJsonBlock(s).value)
  {
    if ExtractJsonBlock(s).Success? {
      var sp := ExtractedSpan(s);
      BlockText(s, sp);
    }
  }

  /** The extracted block is the text of one of the blocks `findall` matched. */
  lemma {:induction false} ExtractedSpan(s: string) returns (sp: Span)
    requires ExtractJsonBlock(s).Success?
    ensures IsBlock(s, sp) && ExtractJsonBlock(s).value == s[sp.start..sp.end]
  {
    var spans := FindAll(s, 0);
    MatchListFacts(s, 0, spans);
    var ms := Matches(s);
    var k := FirstLongest(ms);
    sp := spans[k];
  }

  /** The block is at least as long as every match, and strictly longer than every match
      before it: the first longest match wins. */
  lemma {:induction false} BlockIsFirstLongest(s: string)
    ensures ExtractJsonBlock(s).Success? ==>
      var b := ExtractJsonBlock(s).value;
      var ms := Matches(s);
      && (forall j :: 0 <= j < |ms| ==> |ms[j]| <= |b|)
      && exists k :: 0 <= k < |ms| && ms[k] == b && forall j :: 0 <= j < k ==> |ms[j]| < |b|
  {
    if ExtractJsonBlock(s).Success? {
      var ms := Matches(s);
      var k := FirstLongest(ms);
      assert ms[k] == ExtractJsonBlock(s).value;
    }
  }

  /** A reply with exactly one bracketed region — no `[` before it, none after it — yields
      that region. */
  lemma {:induction false} SingleBlock(before: string, block: string, after: string)
    requires 2 <= |block| && block[0] == '[' && block[|block| - 1] == ']'
    requires forall k :: 0 <= k < |block| - 1 ==> block[k] != ']'
    requires forall k :: 0 <= k < |before| ==> before[k] != '['
    requires forall k :: 0 <= k < |after| ==> after[k] != '['
    ensures ExtractJsonBlock(before + block + after) == Success(block)
  {
    var s := before + block + after;
    var sp := Span(|before|, |before| + |block|);
    assert IsBlock(s, sp);
    assert !HasCandidate(s, sp.end);
    assert IsMatchList(s, sp.end, []);
    assert IsMatchList(s, 0, [sp]);
    MatchListIsFindAll(s, 0, [sp]);
    assert s[sp.start..sp.end] == block;
  }

  // ---------------------------------------------------------------------------
  // Replies with a known outcome

  /** Under DOTALL a newline does not stop a match: a multi-line array is kept whole. */
  lemma MultiLineArray()
    ensures ExtractJsonBlock("x[1,\n2]") == Success("[1,\n2]")
  {
    var before, block, after := "x", "[1,\n2]", "";
    assert before + block + after == "x[1,\n2]";
    assert block[0] == '[' && block[1] == '1' && block[2] == ',' && block[3] == '\n';
    assert block[4] == '2' && block[5] == ']';
    SingleBlock(before, block, after);
  }

  /** The lazy `.*?` stops at the first `]`, so a nested array is cut short: `[[1],[2]]`
      matches as `[[1]` and `[2]`. */
  lemma NestedMatches()
    ensures Matches("[[1],[2]]") == ["[[1]", "[2]"]
  {
    var s := "[[1],[2]]";
    NestedSpans();
    assert Matches(s) == Texts(s, [Span(0, 4), Span(5, 8)]) == [s[0..4], s[5..8]];
    assert s[0..4] == "[[1]" && s[5..8] == "[2]";
  }

  /** Where the two matches of `[[1],[2]]` lie. */
  lemma NestedSpans()
    ensures FindAll("[[1],[2]]", 0) == [Span(0, 4), Span(5, 8)]
  {
    var s := "[[1],[2]]";
    var a, b := Span(0, 4), Span(5, 8);
    assert IsMatchList(s, 8, []);
    assert IsMatchList(s, 5, [b]);
    assert IsMatchList(s, 0, [a, b]);
    MatchListIsFindAll(s, 0, [a, b]);
  }

  /** Of the two matches of `[[1],[2]]` the longer, `[[1]`, is returned. */
  lemma NestedArrayCut()
    ensures ExtractJsonBlock("[[1],[2]]") == Success("[[1]")
  {
    NestedMatches();
    assert ["[[1]", "[2]"][..1] == ["[[1]"];
  }

  /** `[a] [b]` matches as two arrays of the same length. */
  lemma TwinMatches()
    ensures Matches("[a] [b]") == ["[a]", "[b]"]
  {
    var s := "[a] [b]";
    TwinSpans();
    assert Matches(s) == Texts(s, [Span(0, 3), Span(4, 7)]) == [s[0..3], s[4..7]];
    assert s[0..3] == "[a]" && s[4..7] == "[b]";
  }

  /** Where the two matches of `[a] [b]` lie. */
  lemma TwinSpans()
    ensures FindAll("[a] [b]", 0) == [Span(0, 3), Span(4, 7)]
  {
    var s := "[a] [b]";
    var a, b := Span(0, 3), Span(4, 7);
    assert IsMatchList(s, 7, []);
    assert IsMatchList(s, 3, [b]);
    assert IsMatchList(s, 0, [a, b]);
    MatchListIsFindAll(s, 0, [a, b]);
  }

  /** Two equally long arrays: the first one is returned. */
  lemma TieGoesToFirst()
    ensures ExtractJsonBlock("[a] [b]") == Success("[a]")
  {
    TwinMatches();
    assert ["[a]", "[b]"][..1] == ["[a]"];
  }

  /** A reply whose `[` is never closed has no match and raises. */
  lemma UnclosedArray()
    ensures ExtractJsonBlock("] [1, 2") == Failure(NoJsonFound)
  {
    assert !HasCandidate("] [1, 2", 0);
  }
}

=== FILE: reconcile.dfy ===
/** Reconciliation of the decoded table: the computed total, the announced total and the
    decision between the "consistent" and "inconsistent" alerts. */
module Reconcile {
  import opened Wrappers
  import opened Table
  import Text

  /** The product count of a row after coercion; `None` stands for NaN. */
  function Quantity(row: Row): Option<int> {
    Coerce(row.products)
  }

  /** The filter on the reference column at app.py:140: the reference is a string holding
      "total" in any case. Null, numeric and missing references never match. */
  predicate IsTotalRow(row: Row) {
    row.reference.Str? && Text.ContainsFolded(row.reference.s, "Total")
  }

  /** No row of `rows` is a total row. */
  predicate NoTotalRow(rows: seq<Row>) {
    forall i :: 0 <= i < |rows| ==> !IsTotalRow(rows[i])
  }

  /** The rows satisfying `p`, in their original order. */
  function Where(rows: seq<Row>, p: Row -> bool): (r: seq<Row>)
    ensures forall x :: x in r ==> x in rows && p(x)
    ensures forall i :: 0 <= i < |rows| && p(rows[i]) ==> rows[i] in r
    decreases |rows|
  {
    if rows == [] then []
    else
      var init := Where(rows[..|rows| - 1], p);
      var last := rows[|rows| - 1];
      if p(last) then init + [last] else init
  }

  /** The negation of a test on rows. */
  function Not(p: Row -> bool): Row -> bool {
    x => !p(x)
  }

  /** The product count coerces to a number. */
  predicate HasQuantity(row: Row) {
    Quantity(row).Some?
  }

  /** The sum of the product column at app.py:138: NaN is skipped and every row is added,
      total rows included. A single row adds its own count, or nothing when the count is
      NaN. */
  function ComputedTotal(rows: seq<Row>): (t: int)
    ensures |rows| == 1 ==> t == Quantity(rows[0]).GetOr(0)
    decreases |rows|
  {
    if rows == [] then 0 else ComputedTotal(rows[..|rows| - 1]) + Quantity(rows[|rows| - 1]).GetOr(0)
  }

  /** The largest product count among total rows, or `None` when no total row has one. */
  function MaxTotalQuantity(rows: seq<Row>): (m: Option<int>)
    ensures m.None? <==> forall i :: 0 <= i < |rows| && IsTotalRow(rows[i]) ==> Quantity(rows[i]).None?
    ensures m.Some? ==> exists i :: 0 <= i < |rows| && IsTotalRow(rows[i]) && Quantity(rows[i]) == m
    ensures m.Some? ==> forall i :: 0 <= i < |rows| && IsTotalRow(rows[i]) && Quantity(rows[i]).Some? ==>
                          Quantity(rows[i]).value <= m.value
    decreases |rows|
  {
    if rows == [] then None
    else
      var init := rows[..|rows| - 1];
      var m := MaxTotalQuantity(init);
      var last := rows[|rows| - 1];
      assert forall i :: 0 <= i < |init| ==> init[i] == rows[i];
      if !IsTotalRow(last) || Quantity(last).None? then m
      else if m.None? || Quantity(last).value > m.value then Quantity(last)
      else m
  }

  /** What `total_annonce` holds after the `try` block. */
  datatype Announced =
    | NoValue          // the `except` branch: `None`
    | NotANumber       // `max()` over no number: NaN
    | Stated(value: int)

  /** Looking up the references raises, and the `except` catches it: `KeyError` when no row
      has a reference; `AttributeError` from pandas' string accessor when no reference is a
      string but some is a number or is absent from its row. pandas then stores the column
      as numbers, an absent key or a null beside it becoming NaN. A column of nulls alone
      stays a column of objects, and the accessor accepts it. */
  predicate ReferenceLookupRaises(rows: seq<Row>) {
    || !HasColumn(rows, Reference)
    || ((forall i :: 0 <= i < |rows| ==> !rows[i].reference.Str?)
        && exists i :: 0 <= i < |rows| && (rows[i].reference.Num? || rows[i].reference.Missing?))
  }

  /** `total_annonce`: the largest product count among rows whose reference contains
      "total" ignoring case. */
  function AnnouncedTotal(rows: seq<Row>): (a: Announced)
    ensures a.NoValue? <==> ReferenceLookupRaises(rows)
    ensures a.NotANumber? <==>
      !ReferenceLookupRaises(rows)
      && forall i :: 0 <= i < |rows| && IsTotalRow(rows[i]) ==> Quantity(rows[i]).None?
    ensures a.Stated? ==> exists i :: 0 <= i < |rows| && IsTotalRow(rows[i]) && Quantity(rows[i]) == Some(a.value)
    ensures a.Stated? ==> forall i :: 0 <= i < |rows| && IsTotalRow(rows[i]) && Quantity(rows[i]).Some? ==>
                            Quantity(rows[i]).value <= a.value
  {
    if ReferenceLookupRaises(rows) then NoValue
    else match MaxTotalQuantity(rows)
      case None => NotANumber
      case Some(m) => Stated(m)
  }

  /** The alert shown: "Total cohérent" with the computed total, or "Incohérence" with the
      announced and the computed totals. */
  datatype Verdict = Consistent(total: int) | Inconsistent(announced: int, computed: int)

  /** An exception nothing catches: a missing quantity column, or `int(NaN)`. */
  datatype Crash = MissingColumn(column: Column) | NaNToInt

  /** The test at app.py:145 and the alerts after it: `None` and `0` are falsy, so they lead
      to the consistent alert; NaN is truthy and unequal to everything, so converting it to
      an integer for the alert raises. */
  function Decide(announced: Announced, computed: int): (r: Result<Verdict, Crash>)
    ensures r.Failure? <==> announced.NotANumber?
    ensures r.Failure? ==> r.error == NaNToInt
    ensures r.Success? && r.value.Inconsistent? <==>
      announced.Stated? && announced.value != 0 && announced.value != computed
    ensures r.Success? && r.value.Inconsistent? ==> r.value == Inconsistent(announced.value, computed)
    ensures r.Success? && r.value.Consistent? ==> r.value.total == computed
  {
    match announced
    case NoValue => Success(Consistent(computed))
    case NotANumber => Failure(NaNToInt)
    case Stated(a) =>
      if a != 0 && a != computed then Success(Inconsistent(a, computed))
      else Success(Consistent(computed))
  }

  /** Lines 137-148 on a table that has both quantity columns. */
  function ReconcileTotals(rows: seq<Row>): Result<Verdict, Crash> {
    Decide(AnnouncedTotal(rows), ComputedTotal(rows))
  }

  /** Every alert carries the full computed total; an inconsistency names a non-zero
      announced total that differs from it; the only crash is the conversion of NaN, and it
      happens exactly when the lookup succeeds but no total row states a number. */
  lemma {:induction false} ReconcileTotalsAlerts(rows: seq<Row>)
    ensures ReconcileTotals(rows).Failure? <==>
      !ReferenceLookupRaises(rows) && forall i :: 0 <= i < |rows| && IsTotalRow(rows[i]) ==> Quantity(rows[i]).None?
    ensures ReconcileTotals(rows).Failure? ==> ReconcileTotals(rows).error == NaNToInt
    ensures ReconcileTotals(rows).Success? && ReconcileTotals(rows).value.Consistent? ==>
      ReconcileTotals(rows).value.total == ComputedTotal(rows)
    ensures ReconcileTotals(rows).Success? && ReconcileTotals(rows).value.Inconsistent? ==>
      var v := ReconcileTotals(rows).value;
      v.computed == ComputedTotal(rows) && v.announced != 0 && v.announced != v.computed
  {
  }

  // ---------------------------------------------------------------------------
  // The computed total

  /** The computed total of a concatenation is the sum of the parts' totals. */
  lemma {:induction false} ComputedTotalAppend(a: seq<Row>, b: seq<Row>)
    ensures ComputedTotal(a + b) == ComputedTotal(a) + ComputedTotal(b)
    decreases |b|
  {
    if b != [] {
      var b' := b[..|b| - 1];
      assert (a + b)[..|a + b| - 1] == a + b';
      assert (a + b)[|a + b| - 1] == b[|b| - 1];
      ComputedTotalAppend(a, b');
    } else {
      assert a + b == a;
    }
  }

  /** Splitting the rows by any test splits the computed total accordingly. */
  lemma {:induction false} ComputedTotalSplit(rows: seq<Row>, p: Row -> bool)
    ensures ComputedTotal(rows) == ComputedTotal(Where(rows, p)) + ComputedTotal(Where(rows, Not(p)))
    decreases |rows|
  {
    if rows != [] {
      var init := rows[..|rows| - 1];
      var last := rows[|rows| - 1];
      ComputedTotalSplit(init, p);
      ComputedTotalAppend(Where(init, p), [last]);
      ComputedTotalAppend(Where(init, Not(p)), [last]);
    }
  }

  /** Counts that are never negative add up to a total that is not negative. */
  lemma {:induction false} ComputedTotalNonNegative(rows: seq<Row>)
    requires forall i :: 0 <= i < |rows| ==> Quantity(rows[i]).GetOr(0) >= 0
    ensures ComputedTotal(rows) >= 0
    decreases |rows|
  {
    if rows != [] {
      var init := rows[..|rows| - 1];
      assert forall i :: 0 <= i < |init| ==> init[i] == rows[i];
      ComputedTotalNonNegative(init);
    }
  }

  /** Rows without a numeric product count add nothing. */
  lemma {:induction false} NoNumberNoTotal(rows: seq<Row>)
    requires forall i :: 0 <= i < |rows| ==> Quantity(rows[i]).None?
    ensures ComputedTotal(rows) == 0
    decreases |rows|
  {
    if rows != [] {
      NoNumberNoTotal(rows[..|rows| - 1]);
    }
  }

  /** The computed total is the sum over the rows whose count coerces to a number. */
  lemma {:induction false} NonNumericIgnored(rows: seq<Row>)
    ensures ComputedTotal(rows) == ComputedTotal(Where(rows, HasQuantity))
  {
    ComputedTotalSplit(rows, HasQuantity);
    var rest := Where(rows, Not(HasQuantity));
    assert forall i :: 0 <= i < |rest| ==> rest[i] in rest;
    NoNumberNoTotal(rest);
  }

  /** The total rows are counted in the computed total alongside the item rows. */
  lemma {:induction false} TotalRowsAreSummed(rows: seq<Row>)
    ensures ComputedTotal(rows) == ComputedTotal(Where(rows, IsTotalRow)) + ComputedTotal(Where(rows, Not(IsTotalRow)))
  {
    ComputedTotalSplit(rows, IsTotalRow);
  }

  // ---------------------------------------------------------------------------
  // The decision on typical tables

  /** A table of item rows closed by one "Total" row whose count is `q`, not zero, is
      consistent exactly when the items sum to zero; otherwise the alert pits `q` against
      the items' sum plus `q` itself. */
  lemma {:induction false} SingleTotalRow(items: seq<Row>, caption: string, cartons: Cell, q: int)
    requires NoTotalRow(items)
    requires Text.ContainsFolded(caption, "Total")
    requires q != 0
    ensures ReconcileTotals(items + [Row(Str(caption), cartons, Num(q))]) ==
      if ComputedTotal(items) == 0 then Success(Consistent(q))
      else Success(Inconsistent(q, ComputedTotal(items) + q))
  {
    ClosingTotalVerdict(items, Row(Str(caption), cartons, Num(q)), q);
  }

  /** The same for any closing row that is a total row with a non-zero count `q`. */
  lemma {:induction false} ClosingTotalVerdict(items: seq<Row>, t: Row, q: int)
    requires NoTotalRow(items)
    requires IsTotalRow(t) && Quantity(t) == Some(q) && q != 0
    ensures ReconcileTotals(items + [t]) ==
      if ComputedTotal(items) == 0 then Success(Consistent(q))
      else Success(Inconsistent(q, ComputedTotal(items) + q))
  {
    var rows, c := items + [t], ComputedTotal(items);
    AnnouncedOfClosingTotal(items, t);
    assert ComputedTotal(rows) == c + q by {
      assert rows[..|rows| - 1] == items;
    }
    VerdictOf(rows, q, c + q);
    if c == 0 {
      assert ReconcileTotals(rows) == Success(Consistent(q));
    } else {
      assert ReconcileTotals(rows) == Success(Inconsistent(q, c + q));
    }
  }

  /** The verdict depends on the rows only through the two totals. */
  lemma {:induction false} VerdictOf(rows: seq<Row>, a: int, c: int)
    requires AnnouncedTotal(rows) == Stated(a) && ComputedTotal(rows) == c
    ensures ReconcileTotals(rows) == if a != 0 && a != c then Success(Inconsistent(a, c)) else Success(Consistent(c))
  {
  }

  /** Item rows closed by one total row announce that row's count. */
  lemma {:induction false} AnnouncedOfClosingTotal(items: seq<Row>, t: Row)
    requires NoTotalRow(items)
    requires IsTotalRow(t) && Quantity(t).Some?
    ensures AnnouncedTotal(items + [t]) == Stated(Quantity(t).value)
  {
    var rows := items + [t];
    assert rows[|rows| - 1] == t && rows[..|rows| - 1] == items;
    assert !ReferenceLookupRaises(rows) by {
      assert !CellOf(rows[|rows| - 1], Reference).Missing?;
    }
    assert MaxTotalQuantity(items) == None;
    assert MaxTotalQuantity(rows) == Quantity(t);
  }

  /** The total row counts twice: when it states exactly the sum of the item rows, and that
      sum is not zero, the code reports an inconsistency against twice that sum. */
  lemma {:induction false} TotalRowCountedTwice(items: seq<Row>, caption: string, cartons: Cell, q: int)
    requires NoTotalRow(items)
    requires Text.ContainsFolded(caption, "Total")
    requires q == ComputedTotal(items) && q != 0
    ensures ReconcileTotals(items + [Row(Str(caption), cartons, Num(q))]) == Success(Inconsistent(q, 2 * q))
  {
    SingleTotalRow(items, caption, cartons, q);
    assert ComputedTotal(items) != 0 && ComputedTotal(items) + q == 2 * q;
  }

  /** String references but no total row with a number: `max()` gives NaN and `int(NaN)`
      raises. */
  lemma {:induction false} NoStatedTotalCrashes(rows: seq<Row>)
    requires exists i :: 0 <= i < |rows| && rows[i].reference.Str?
    requires forall i :: 0 <= i < |rows| && IsTotalRow(rows[i]) ==> Quantity(rows[i]).None?
    ensures ReconcileTotals(rows) == Failure(NaNToInt)
  {
  }

  /** On a non-empty table the `KeyError` is the case of the `AttributeError` rule where every
      reference is absent: the lookup raises exactly when no reference is a string and some
      reference is a number or absent. */
  lemma {:induction false} ReferenceLookupRaisesIff(rows: seq<Row>)
    ensures ReferenceLookupRaises(rows) <==>
      || rows == []
      || ((forall i :: 0 <= i < |rows| ==> !rows[i].reference.Str?)
          && exists i :: 0 <= i < |rows| && (rows[i].reference.Num? || rows[i].reference.Missing?))
  {
    if rows != [] && !HasColumn(rows, Reference) {
      assert !CellOf(rows[0], Reference).Missing? ==> HasColumn(rows, Reference);
      forall i | 0 <= i < |rows|
        ensures !rows[i].reference.Str?
      {
        assert !CellOf(rows[i], Reference).Missing? ==> HasColumn(rows, Reference);
      }
    }
  }

  /** A row is a total row exactly when its reference is a string in which "total" occurs at
      some position, ignoring case. */
  lemma IsTotalRowIff(row: Row)
    ensures IsTotalRow(row) <==> row.reference.Str? && exists i :: Text.FoldedAt(row.reference.s, "Total", i)
  {
    if row.reference.Str? {
      Text.ContainsFoldedIff(row.reference.s, "Total");
    }
  }

  /** References that are null in one row and absent from the other make a column of NaN,
      on which the lookup raises: the total is reported as consistent. References that are
      all null make a column the lookup accepts, no total row is found, and converting the
      NaN maximum crashes. */
  lemma NullReferences()
    ensures ReconcileTotals([Row(Null, Num(1), Num(5)), Row(Missing, Num(1), Num(7))]) == Success(Consistent(12))
    ensures ReconcileTotals([Row(Null, Num(1), Num(5)), Row(Null, Num(1), Num(7))]) == Failure(NaNToInt)
  {
    var mixed := [Row(Null, Num(1), Num(5)), Row(Missing, Num(1), Num(7))];
    assert ReferenceLookupRaises(mixed) by {
      assert mixed[1].reference.Missing?;
    }
    assert ComputedTotal(mixed) == 12 by {
      assert mixed[..1] == [mixed[0]];
    }
    var nulls := [Row(Null, Num(1), Num(5)), Row(Null, Num(1), Num(7))];
    assert HasColumn(nulls, Reference) by {
      assert !CellOf(nulls[0], Reference).Missing?;
    }
    assert !ReferenceLookupRaises(nulls);
  }

  /** When the reference lookup raises, the computed total is reported as consistent. */
  lemma {:induction false} LookupFailureReportsConsistent(rows: seq<Row>)
    requires ReferenceLookupRaises(rows)
    ensures ReconcileTotals(rows) == Success(Consistent(ComputedTotal(rows)))
  {
  }

  /** The delivery note 108 + 50 closed by "Total" 158 is reported inconsistent (158 against
      316); with "Total" 160 the alert reads 160 against 318. */
  lemma DeliveryNoteExample()
    ensures ReconcileTotals([Row(Str("A"), Num(1), Num(108)), Row(Str("B"), Num(1), Num(50)),
                       Row(Str("Total"), Num(2), Num(158))]) == Success(Inconsistent(158, 316))
    ensures ReconcileTotals([Row(Str("A"), Num(1), Num(108)), Row(Str("B"), Num(1), Num(50)),
                       Row(Str("Total"), Num(2), Num(160))]) == Success(Inconsistent(160, 318))
  {
    var items := [Row(Str("A"), Num(1), Num(108)), Row(Str("B"), Num(1), Num(50))];
    NoteItems();
    SingleTotalRow(items, "Total", Num(2), 158);
    SingleTotalRow(items, "Total", Num(2), 160);
    assert items + [Row(Str("Total"), Num(2), Num(158))] == [items[0], items[1], Row(Str("Total"), Num(2), Num(158))];
    assert items + [Row(Str("Total"), Num(2), Num(160))] == [items[0], items[1], Row(Str("Total"), Num(2), Num(160))];
  }

  /** The item rows of that note sum to 158 and hold no total row, and "Total" is a total
      caption. */
  lemma NoteItems()
    ensures NoTotalRow([Row(Str("A"), Num(1), Num(108)), Row(Str("B"), Num(1), Num(50))])
    ensures ComputedTotal([Row(Str("A"), Num(1), Num(108)), Row(Str("B"), Num(1), Num(50))]) == 158
    ensures Text.ContainsFolded("Total", "Total")
  {
    var items := [Row(Str("A"), Num(1), Num(108)), Row(Str("B"), Num(1), Num(50))];
    assert Text.FoldedAt("Total", "Total", 0);
    Text.ContainsFoldedIff("Total", "Total");
    assert !Text.ContainsFolded("A", "Total") && !Text.ContainsFolded("B", "Total");
    assert items[..1] == [items[0]];
    assert [items[0]][..0] == [];
  }
}

=== FILE: session.dfy ===
/** One analysis of an uploaded file: choosing the route from the file name, asking the
    model once per page (or once for a spreadsheet), gathering the rows, and the alert. */
module Session {
  import opened Wrappers
  import opened Table
  import opened Reconcile
  import JsonBlock
  import Text

  // ---------------------------------------------------------------------------
  // The file extension and the route it selects

  /** The last piece of the name split at its dots (app.py:107): what follows the last `.`,
      or the whole name when it has none. */
  function AfterLastDot(name: string): (r: string)
    ensures |r| <= |name| && r == name[|name| - |r|..]
    ensures forall k :: 0 <= k < |r| ==> r[k] != '.'
    ensures |r| < |name| ==> name[|name| - |r| - 1] == '.'
    decreases |name|
  {
    if name == [] then []
    else if name[|name| - 1] == '.' then []
    else AfterLastDot(name[..|name| - 1]) + [name[|name| - 1]]
  }

  /** The extension of app.py:107: the part after the last dot, lower-cased. It is a suffix
      of the name with no dot and no capital in it, preceded by a dot unless it is the whole
      name. */
  function Extension(name: string): (ext: string)
    ensures |ext| <= |name|
    ensures forall k :: 0 <= k < |ext| ==> ext[k] != '.' && !Text.IsUpper(ext[k])
    ensures |ext| < |name| ==> name[|name| - |ext| - 1] == '.'
    ensures ext == Text.Lower(name[|name| - |ext|..])
  {
    Text.Lower(AfterLastDot(name))
  }

  /** Which branch of the `if ext in ...` chain runs. */
  datatype Route = ImagePages | Spreadsheet | Unsupported

  function RouteOf(ext: string): (r: Route)
    ensures r == ImagePages <==> ext in {"pdf", "png", "jpg", "jpeg"}
    ensures r == Spreadsheet <==> ext in {"xls", "xlsx"}
  {
    if ext == "pdf" || ext == "png" || ext == "jpg" || ext == "jpeg" then ImagePages
    else if ext == "xls" || ext == "xlsx" then Spreadsheet
    else Unsupported
  }

  /** The suffix after the last dot is uniquely determined: whatever the stem, a name
      ending in `.` followed by a dot-free `ext` has extension part `ext`. */
  lemma {:induction false} AfterLastDotOfJoin(stem: string, ext: string)
    requires forall k :: 0 <= k < |ext| ==> ext[k] != '.'
    ensures AfterLastDot(stem + "." + ext) == ext
    decreases |ext|
  {
    var name := stem + "." + ext;
    if ext == [] {
      assert name[|name| - 1] == '.';
    } else {
      var init := ext[..|ext| - 1];
      AfterLastDotOfJoin(stem, init);
      assert name[..|name| - 1] == stem + "." + init;
      assert name[|name| - 1] == ext[|ext| - 1];
      assert init + [ext[|ext| - 1]] == ext;
    }
  }

  /** A name without any dot is its own extension part. */
  lemma NoDotWholeName(name: string)
    requires forall k :: 0 <= k < |name| ==> name[k] != '.'
    ensures AfterLastDot(name) == name
  {
  }

  /** The route depends only on the lower-cased text after the last dot: "Bon.PDF" takes
      the image route. */
  lemma UpperCasePdfIsImage()
    ensures RouteOf(Extension("Bon.PDF")) == ImagePages
  {
    AfterLastDotOfJoin("Bon", "PDF");
    assert "Bon" + "." + "PDF" == "Bon.PDF";
    assert Text.Lower("PDF") == "pdf";
  }

  /** "notes.pdf.txt" ends in ".txt" and takes no route. */
  lemma LastDotDecides()
    ensures RouteOf(Extension("notes.pdf.txt")) == Unsupported
  {
    AfterLastDotOfJoin("notes.pdf", "txt");
    assert "notes.pdf" + "." + "txt" == "notes.pdf.txt";
    assert Text.Lower("txt") == "txt";
  }

  // ---------------------------------------------------------------------------
  // Asking the model and decoding its reply

  /** What the chat-completion call gave back, or that it raised. */
  datatype Reply = Answered(text: string) | CallFailed

  /** `run_gpt_analysis`: the rows decoded from the longest bracketed block of the reply,
      or `[]` when the call, the extraction or the decoding raises. `decode` stands for
      `json.loads` followed by reading the objects as rows; `None` is a decoding error.
      Every exception becomes the empty list: rows come back only from a reply that holds
      a bracketed block which decodes to exactly those rows. */
  function Analyse(reply: Reply, decode: string -> Option<seq<Row>>): (rows: seq<Row>)
    ensures reply.CallFailed? ==> rows == []
    ensures reply.Answered? && !JsonBlock.HasCandidate(reply.text, 0) ==> rows == []
    ensures rows != [] ==>
      && reply.Answered?
      && JsonBlock.ExtractJsonBlock(reply.text).Success?
      && decode(JsonBlock.ExtractJsonBlock(reply.text).value) == Some(rows)
    ensures reply.Answered? && JsonBlock.ExtractJsonBlock(reply.text).Success?
            && decode(JsonBlock.ExtractJsonBlock(reply.text).value).Some? ==>
      rows == decode(JsonBlock.ExtractJsonBlock(reply.text).value).value
  {
    match reply
    case CallFailed => []
    case Answered(text) =>
      var block := JsonBlock.ExtractJsonBlock(text);
      if block.Failure? then [] else decode(block.value).GetOr([])
  }

  /** `run_gpt_analysis` with the decoder fixed, as a function of the reply alone. */
  function Analyser(decode: string -> Option<seq<Row>>): Reply -> seq<Row> {
    reply => Analyse(reply, decode)
  }

  /** The loop at app.py:119-120: the rows of each page appended in turn, starting from the
      empty list. No row of any page is lost. */
  function Gather(pages: seq<Reply>, analyse: Reply -> seq<Row>): (r: seq<Row>)
    ensures forall k, x :: 0 <= k < |pages| && x in analyse(pages[k]) ==> x in r
    decreases |pages|
  {
    if pages == [] then []
    else
      var init := pages[..|pages| - 1];
      assert forall k :: 0 <= k < |init| ==> init[k] == pages[k];
      Gather(init, analyse) + analyse(pages[|pages| - 1])
  }

  /** The rows of the route taken: every page for an image or a PDF, the single
      spreadsheet call for an Excel file, nothing otherwise. */
  function CollectRows(route: Route, pages: seq<Reply>, sheet: Reply,
                       decode: string -> Option<seq<Row>>): (rows: seq<Row>)
    ensures route == Unsupported ==> rows == []
    ensures route == Spreadsheet && rows != [] ==> sheet.Answered?
    ensures route == Spreadsheet ==> rows == Analyse(sheet, decode)
    ensures route == ImagePages ==> rows == Gather(pages, Analyser(decode))
    ensures route == ImagePages ==>
      forall k, x :: 0 <= k < |pages| && x in Analyse(pages[k], decode) ==> x in rows
    ensures route == ImagePages ==>
      forall x :: x in rows ==> exists k :: 0 <= k < |pages| && x in Analyse(pages[k], decode)
  {
    match route
    case ImagePages =>
      GatheredRowsFromPages(pages, Analyser(decode));
      Gather(pages, Analyser(decode))
    case Spreadsheet => Analyse(sheet, decode)
    case Unsupported => []
  }

  /** How the script run ends. */
  datatype Outcome =
    | Stopped                                  // `st.stop()`: no rows
    | Crashed(reason: Crash)                   // an uncaught exception
    | Reported(verdict: Verdict, table: seq<Row>)

  /** Lines 127-148 on the gathered rows: stop on an empty list, build the table (which
      raises when a quantity column is absent), then reconcile. */
  function Finish(rows: seq<Row>): (o: Outcome)
    ensures o == Stopped <==> rows == []
    ensures o == Crashed(MissingColumn(Products)) <==> rows != [] && !HasColumn(rows, Products)
    ensures o == Crashed(MissingColumn(Cartons)) <==>
      rows != [] && HasColumn(rows, Products) && !HasColumn(rows, Cartons)
    ensures o.Reported? ==> o.table == rows && HasColumn(rows, Products) && HasColumn(rows, Cartons)
  {
    if rows == [] then Stopped
    else if !HasColumn(rows, Products) then Crashed(MissingColumn(Products))
    else if !HasColumn(rows, Cartons) then Crashed(MissingColumn(Cartons))
    else match ReconcileTotals(rows)
      case Success(v) => Reported(v, rows)
      case Failure(c) => Crashed(c)
  }

  /** Lines 106-148: route, gather, finish. `pages` are the replies for the page images in
      order, `sheet` the reply for the text of a spreadsheet. */
  function Run(name: string, pages: seq<Reply>, sheet: Reply,
               decode: string -> Option<seq<Row>>): (o: Outcome)
    ensures RouteOf(Extension(name)) == Unsupported ==> o == Stopped
    ensures o.Reported? ==> RouteOf(Extension(name)) != Unsupported
    ensures o == Stopped <==>
      RouteOf(Extension(name)) == Unsupported || CollectRows(RouteOf(Extension(name)), pages, sheet, decode) == []
  {
    Finish(CollectRows(RouteOf(Extension(name)), pages, sheet, decode))
  }

  // ---------------------------------------------------------------------------
  // Properties of the gathered rows

  /** Gathering over consecutive runs of pages concatenates their rows in page order. */
  lemma {:induction false} GatherAppend(a: seq<Reply>, b: seq<Reply>, analyse: Reply -> seq<Row>)
    ensures Gather(a + b, analyse) == Gather(a, analyse) + Gather(b, analyse)
    decreases |b|
  {
    if b == [] {
      assert a + b == a;
    } else {
      var init, last := b[..|b| - 1], b[|b| - 1];
      assert (a + b)[..|a + b| - 1] == a + init;
      assert (a + b)[|a + b| - 1] == last;
      calc {
        Gather(a + b, analyse);
        Gather(a + init, analyse) + analyse(last);
        { GatherAppend(a, init, analyse); }
        Gather(a, analyse) + Gather(init, analyse) + analyse(last);
        Gather(a, analyse) + Gather(b, analyse);
      }
    }
  }

  /** The gathered rows of a single page are that page's rows. */
  lemma GatherOne(page: Reply, analyse: Reply -> seq<Row>)
    ensures Gather([page], analyse) == analyse(page)
  {
    assert [page][..0] == [];
  }

  /** A page whose call, extraction or decoding fails contributes nothing: dropping it does
      not change the gathered rows. */
  lemma {:induction false} FailedPageContributesNothing(pages: seq<Reply>, k: nat, analyse: Reply -> seq<Row>)
    requires k < |pages| && analyse(pages[k]) == []
    ensures Gather(pages, analyse) == Gather(pages[..k] + pages[k + 1..], analyse)
  {
    assert pages == pages[..k] + [pages[k]] + pages[k + 1..];
    GatherAppend(pages[..k] + [pages[k]], pages[k + 1..], analyse);
    GatherAppend(pages[..k], [pages[k]], analyse);
    GatherOne(pages[k], analyse);
    GatherAppend(pages[..k], pages[k + 1..], analyse);
  }

  /** Every gathered row was produced for some page. */
  lemma {:induction false} GatheredRowsComeFromPages(pages: seq<Reply>, analyse: Reply -> seq<Row>, x: Row)
    requires x in Gather(pages, analyse)
    ensures exists k :: 0 <= k < |pages| && x in analyse(pages[k])
    decreases |pages|
  {
    var init := pages[..|pages| - 1];
    if x in Gather(init, analyse) {
      GatheredRowsComeFromPages(init, analyse, x);
      var k :| 0 <= k < |init| && x in analyse(init[k]);
      assert init[k] == pages[k];
    } else {
      assert x in analyse(pages[|pages| - 1]);
    }
  }

  /** Every gathered row, whichever it is, was produced for some page. */
  lemma {:induction false} GatheredRowsFromPages(pages: seq<Reply>, analyse: Reply -> seq<Row>)
    ensures forall x :: x in Gather(pages, analyse) ==>
      exists k :: 0 <= k < |pages| && x in analyse(pages[k])
  {
    forall x | x in Gather(pages, analyse)
      ensures exists k :: 0 <= k < |pages| && x in analyse(pages[k])
    {
      GatheredRowsComeFromPages(pages, analyse, x);
    }
  }

  /** When no page yields rows, nothing is gathered. */
  lemma {:induction false} NoPageRows(pages: seq<Reply>, analyse: Reply -> seq<Row>)
    requires forall k :: 0 <= k < |pages| ==> analyse(pages[k]) == []
    ensures Gather(pages, analyse) == []
    decreases |pages|
  {
    if pages != [] {
      NoPageRows(pages[..|pages| - 1], analyse);
    }
  }

  /** Adding a page adds that page's total, read on its own, to the computed total. */
  lemma {:induction false} ComputedTotalByPage(earlier: seq<Reply>, page: Reply, analyse: Reply -> seq<Row>)
    ensures ComputedTotal(Gather(earlier + [page], analyse))
      == ComputedTotal(Gather(earlier, analyse)) + ComputedTotal(analyse(page))
  {
    var pages := earlier + [page];
    assert pages[..|pages| - 1] == earlier && pages[|pages| - 1] == page;
    ComputedTotalAppend(Gather(earlier, analyse), analyse(page));
  }

  // ---------------------------------------------------------------------------
  // Properties of a run

  /** An image or PDF whose every call fails stops without an alert. */
  lemma {:induction false} FailedCallsStop(name: string, pages: seq<Reply>, sheet: Reply, decode: string -> Option<seq<Row>>)
    requires RouteOf(Extension(name)) == ImagePages
    requires forall k :: 0 <= k < |pages| ==> pages[k].CallFailed?
    ensures Run(name, pages, sheet, decode) == Stopped
  {
    forall k | 0 <= k < |pages|
      ensures Analyser(decode)(pages[k]) == []
    {
    }
    NoPageRows(pages, Analyser(decode));
  }

  /** Once both quantity columns exist, the alert is the reconciliation of the gathered
      rows, with the crash of `int(NaN)` as its only failure. */
  lemma {:induction false} FinishReconciles(rows: seq<Row>)
    requires rows != [] && HasColumn(rows, Products) && HasColumn(rows, Cartons)
    ensures Finish(rows).Reported? <==> ReconcileTotals(rows).Success?
    ensures Finish(rows).Reported? ==> Finish(rows).verdict == ReconcileTotals(rows).value
    ensures Finish(rows) == Crashed(NaNToInt) <==> AnnouncedTotal(rows).NotANumber?
  {
  }
}

=== FILE: table.dfy ===
/** The decoded table: one row per JSON object of the extracted array, and pandas'
    `to_numeric(..., errors="coerce")` on its quantity columns. */
module Table {
  import opened Wrappers

  /** One JSON value under one key of a row, or the key's absence from that row. */
  datatype Cell = Num(n: int) | Str(s: string) | Null | Missing

  /** The three keys the reconciliation reads: product reference, carton count and
      product count. The "Vérification" key only feeds the display and is not kept. */
  datatype Row = Row(reference: Cell, cartons: Cell, products: Cell)

  datatype Column = Reference | Cartons | Products

  function CellOf(row: Row, col: Column): Cell {
    match col
    case Reference => row.reference
    case Cartons => row.cartons
    case Products => row.products
  }

  /** `pd.DataFrame(rows)` has a column for a key exactly when some row carries that key. */
  predicate HasColumn(rows: seq<Row>, col: Column) {
    exists i :: 0 <= i < |rows| && !CellOf(rows[i], col).Missing?
  }

  /** The table built from rows gathered page after page has a column exactly when the rows
      of some page carry its key. */
  lemma {:induction false} HasColumnAppend(a: seq<Row>, b: seq<Row>, col: Column)
    ensures HasColumn(a + b, col) <==> HasColumn(a, col) || HasColumn(b, col)
  {
    if HasColumn(a + b, col) {
      var i :| 0 <= i < |a + b| && !CellOf((a + b)[i], col).Missing?;
      if i < |a| {
        assert (a + b)[i] == a[i];
      } else {
        assert (a + b)[i] == b[i - |a|];
      }
    }
    if HasColumn(a, col) {
      var i :| 0 <= i < |a| && !CellOf(a[i], col).Missing?;
      assert (a + b)[i] == a[i];
    }
    if HasColumn(b, col) {
      var i :| 0 <= i < |b| && !CellOf(b[i], col).Missing?;
      assert (a + b)[|a| + i] == b[i];
    }
  }

  // ---------------------------------------------------------------------------
  // Decimal integers

  predicate IsDigit(c: char) {
    '0' <= c <= '9'
  }

  predicate AllDigits(t: string) {
    forall k :: 0 <= k < |t| ==> IsDigit(t[k])
  }

  /** An optional `+` or `-` followed by at least one decimal digit. */
  predicate IsIntLiteral(t: string) {
    if |t| > 0 && (t[0] == '-' || t[0] == '+') then |t| > 1 && AllDigits(t[1..])
    else |t| > 0 && AllDigits(t)
  }

  function DigitValue(c: char): nat
    requires IsDigit(c)
  {
    c as int - '0' as int
  }

  function DigitChar(d: nat): char
    requires d < 10
  {
    ('0' as int + d) as char
  }

  /** The value of a string of digits, most significant first. */
  function DigitsValue(t: string): nat
    requires AllDigits(t)
    decreases |t|
  {
    if t == [] then 0 else DigitsValue(t[..|t| - 1]) * 10 + DigitValue(t[|t| - 1])
  }

  /** Reads a decimal integer literal; any other text is not a number. */
  function ParseInt(t: string): (r: Option<int>)
    ensures r.Some? <==> IsIntLiteral(t)
  {
    if !IsIntLiteral(t) then None
    else if t[0] == '-' then Some(-(DigitsValue(t[1..]) as int))
    else if t[0] == '+' then Some(DigitsValue(t[1..]))
    else Some(DigitsValue(t))
  }

  /** The digits of `n` with no leading zero. */
  function ShowNat(n: nat): (t: string)
    ensures |t| > 0 && AllDigits(t)
    decreases n
  {
    if n < 10 then [DigitChar(n)] else ShowNat(n / 10) + [DigitChar(n % 10)]
  }

  /** The decimal text of `n` as a JSON writer would quote it. */
  function ShowInt(n: int): string {
    if n < 0 then "-" + ShowNat(-n) else ShowNat(n)
  }

  /** `pd.to_numeric(..., errors="coerce")` on one cell: numbers stay, text that reads as
      an integer becomes that integer, everything else becomes NaN (`None`). */
  function Coerce(c: Cell): (r: Option<int>)
    ensures c.Num? ==> r == Some(c.n)
    ensures c.Str? ==> (r.Some? <==> IsIntLiteral(c.s))
    ensures c.Null? || c.Missing? ==> r == None
  {
    match c
    case Num(n) => Some(n)
    case Str(t) => ParseInt(t)
    case Null => None
    case Missing => None
  }

  // ---------------------------------------------------------------------------
  // Round trip of the decimal text

  lemma {:induction false} DigitsOfShowNat(n: nat)
    ensures DigitsValue(ShowNat(n)) == n
    decreases n
  {
    var t := ShowNat(n);
    if n >= 10 {
      DigitsOfShowNat(n / 10);
      assert t[..|t| - 1] == ShowNat(n / 10);
    }
  }

  /** Reading back the decimal text of any integer gives that integer. */
  lemma ParseShowInt(n: int)
    ensures ParseInt(ShowInt(n)) == Some(n)
  {
    if n < 0 {
      var d := ShowNat(-n);
      DigitsOfShowNat(-n);
      assert ("-" + d)[1..] == d;
    } else {
      DigitsOfShowNat(n);
    }
  }

  /** A quantity the model quoted as a string counts exactly like the bare number. */
  lemma QuotedNumberCoerces(n: int)
    ensures Coerce(Str(ShowInt(n))) == Coerce(Num(n)) == Some(n)
  {
    ParseShowInt(n);
  }

  // ---------------------------------------------------------------------------
  // Signs and leading zeros

  /** `z` zero digits. */
  function Zeros(z: nat): (t: string)
    ensures |t| == z && AllDigits(t)
  {
    seq(z, _ => '0')
  }

  /** Zero digits in front change nothing: "007" is worth 7. */
  lemma {:induction false} DigitsValueZeros(z: nat, t: string)
    requires AllDigits(t)
    ensures DigitsValue(Zeros(z) + t) == DigitsValue(t)
    decreases |t|
  {
    var w := Zeros(z) + t;
    if t == [] {
      assert w == Zeros(z);
      ZerosWorthNothing(z);
    } else {
      assert w[..|w| - 1] == Zeros(z) + t[..|t| - 1];
      assert w[|w| - 1] == t[|t| - 1];
      DigitsValueZeros(z, t[..|t| - 1]);
    }
  }

  lemma {:induction false} ZerosWorthNothing(z: nat)
    ensures DigitsValue(Zeros(z)) == 0
    decreases z
  {
    if z > 0 {
      assert Zeros(z)[..z - 1] == Zeros(z - 1);
      ZerosWorthNothing(z - 1);
    }
  }

  /** A count written with leading zeros, with or without a sign, reads as the signed value
      of its digits: "007" and "+7" read as 7, "-007" as -7. */
  lemma {:induction false} ParseSignedPadded(z: nat, n: nat)
    ensures ParseInt(Zeros(z) + ShowNat(n)) == Some(n)
    ensures ParseInt("+" + Zeros(z) + ShowNat(n)) == Some(n)
    ensures ParseInt("-" + Zeros(z) + ShowNat(n)) == Some(-(n as int))
  {
    var d := Zeros(z) + ShowNat(n);
    DigitsOfShowNat(n);
    DigitsValueZeros(z, ShowNat(n));
    ParseDigits(d);
    assert "+" + Zeros(z) + ShowNat(n) == "+" + d;
    assert "-" + Zeros(z) + ShowNat(n) == "-" + d;
  }

  /** Digits read as their value, after an optional sign. */
  lemma {:induction false} ParseDigits(d: string)
    requires |d| > 0 && AllDigits(d)
    ensures ParseInt(d) == Some(DigitsValue(d))
    ensures ParseInt("+" + d) == Some(DigitsValue(d))
    ensures ParseInt("-" + d) == Some(-(DigitsValue(d) as int))
  {
    assert IsDigit(d[0]);
    assert ("+" + d)[1..] == d && ("-" + d)[1..] == d;
  }
}

=== FILE: text.dfy ===
/** Character-level helpers: ASCII lower-casing and case-insensitive substring search. */
module Text {

  predicate IsUpper(c: char) {
    'A' <= c <= 'Z'
  }

  /** Lower-cases an ASCII capital and leaves every other character alone. */
  function LowerChar(c: char): char {
    if IsUpper(c) then (c as int + 32) as char else c
  }

  /** The lower-case letters in alphabetical order. */
  const LowerAlphabet := "abcdefghijklmnopqrstuvwxyz"

  /** `str.lower()` restricted to ASCII capitals: no capital remains, each capital becomes
      the lower-case letter at the same place in the alphabet, and every other character is
      kept where it was. */
  function Lower(s: string): (r: string)
    ensures |r| == |s|
    ensures forall i :: 0 <= i < |r| ==> !IsUpper(r[i])
    ensures forall i :: 0 <= i < |s| && !IsUpper(s[i]) ==> r[i] == s[i]
    ensures forall i :: 0 <= i < |s| && IsUpper(s[i]) ==> r[i] == LowerAlphabet[s[i] as int - 'A' as int]
  {
    seq(|s|, i requires 0 <= i < |s| => LowerChar(s[i]))
  }

  /** Lower-casing twice changes nothing more. */
  lemma {:induction false} LowerIdempotent(s: string)
    ensures Lower(Lower(s)) == Lower(s)
  {
    var r := Lower(s);
    assert forall i :: 0 <= i < |r| ==> Lower(r)[i] == r[i];
  }

  /** `needle` starts at position `i` of `t` once both are lower-cased. */
  predicate FoldedAt(t: string, needle: string, i: int) {
    0 <= i && i + |needle| <= |t| && forall k :: 0 <= k < |needle| ==> LowerChar(t[i + k]) == LowerChar(needle[k])
  }

  /** Scans `t` from position `from` onwards for `needle`, ignoring case, one position at a time. */
  function ContainsFoldedFrom(t: string, needle: string, from: nat): bool
    decreases |t| - from
  {
    if from + |needle| > |t| then false
    else FoldedAt(t, needle, from) || ContainsFoldedFrom(t, needle, from + 1)
  }

  /** `re.search(needle, t, re.IGNORECASE)` for a needle without metacharacters. */
  function ContainsFolded(t: string, needle: string): bool {
    ContainsFoldedFrom(t, needle, 0)
  }

  /** The scan from `from` finds the needle exactly when it occurs at some position at or
      after `from`. */
  lemma {:induction false} ContainsFoldedFromIff(t: string, needle: string, from: nat)
    ensures ContainsFoldedFrom(t, needle, from) <==> exists i :: from <= i && FoldedAt(t, needle, i)
    decreases |t| - from
  {
    if from + |needle| <= |t| {
      ContainsFoldedFromIff(t, needle, from + 1);
      if exists i :: from <= i && FoldedAt(t, needle, i) {
        var i :| from <= i && FoldedAt(t, needle, i);
        assert i == from || (from + 1 <= i && FoldedAt(t, needle, i));
      }
    }
  }

  /** `ContainsFolded` holds exactly when the needle occurs somewhere, ignoring case. */
  lemma {:induction false} ContainsFoldedIff(t: string, needle: string)
    ensures ContainsFolded(t, needle) <==> exists i :: FoldedAt(t, needle, i)
  {
    ContainsFoldedFromIff(t, needle, 0);
  }

  /** The case of the needle does not matter either: "Total" is found in "TOTAL". */
  lemma CaseOfNeedleIgnored()
    ensures ContainsFolded("TOTAL", "Total") && ContainsFolded("total", "Total")
  {
    assert FoldedAt("TOTAL", "Total", 0);
    assert FoldedAt("total", "Total", 0);
    ContainsFoldedIff("TOTAL", "Total");
    ContainsFoldedIff("total", "Total");
  }
}

=== FILE: wrappers.dfy ===
/** Optional values and the outcomes of steps that can raise, shared by the rest of the
    model. */
module Wrappers {

  /** A value that may be absent: pandas' NaN, a regex that found nothing. */
  datatype Option<+T> = None | Some(value: T) {

    /** The wrapped value, or `default` when there is none. */
    function GetOr(default: T): T {
      match this
      case Some(v) => v
      case None => default
    }
  }

  /** The outcome of a step that can raise: a value, or the error it raised. */
  datatype Result<+R, +E> = Success(value: R) | Failure(error: E)
}
